=== FILE: README.md ===
# Piston visualiser core, modelled in Dafny

This project models the core of `gymnarium_visualisers_piston` (`src/lib.rs`).
That crate's `PistonVisualiser` hands 2D scenes from a producer (the
environment being visualised) to a dedicated render thread, which redraws
them in a Piston window. The model covers four parts:

- **The producer side.** `render_two_dimensional` asks the environment for
  its preferred view and its geometries. It fails with the environment's
  error if either request fails. Otherwise it writes each of two
  single-slot cells, but only when the new value differs from the value it
  last wrote (`Visualiser.RenderTwoDimensional`).
- **The cells and the render thread.** A cell is an `Option` under a mutex.
  A write overwrites the cell and a take empties it (`Mailbox`). The thread
  takes both cells once at start (`Visualiser.ThreadStart`). After that,
  each loop iteration draws on a render tick. It then either asks the window
  to close, when a close was requested, or takes both cells and keeps its old
  values for any cell that was empty (`Visualiser.LoopStep`). `closed` is set
  when the loop ends. `close` and `is_open` form the handle's lifecycle
  (`Visualiser.Close`, `Visualiser.IsOpen`).
- **The keep-aspect-ratio fit.** `render` fits the largest rectangle with the
  logical viewport's aspect ratio into the draw surface, and for
  `KeepAspectRatioAndScissorRemains` it also builds a centered scissor
  rectangle (`ViewportFit`).
- **Scene decomposition.** `render_geometry_2d` and `draw_polygon_border`
  walk the scene graph, groups included, and emit primitive draw calls. Here
  each call is a `Command` value holding the arguments the backend would
  receive (`Scene`).

Threads are modelled as one state record (`Visualiser.State`). Four kinds of
atomic step change it: a producer call, the thread's start, one loop
iteration and a close. `Visualiser.Valid` is the invariant that every step
keeps. It ties `closed` to the end of the loop, and it ties each cell to the
last value the producer wrote and to what the render thread holds.

Every `f64` is modelled as a Dafny `real`. This is an idealisation: there is
no rounding, no infinity and no NaN. The `as u32` casts of the scissor
rectangle are written out as a saturating truncation (`ViewportFit.CastU32`).

Files: `wrappers.dfy` (Option, Result), `geometry.dfy` (scene-graph values),
`mailbox.dfy` (the single-slot cell), `viewport_fit.dfy` (the fit),
`scene.dfy` (the renderer), `visualiser.dfy` (handle, thread and lifecycle).

A geometry node is `Leaf(shape, transformations)` or `Group(children)`. The
base crate's `Geometry2D` puts the chain of transformations inside every
non-group variant. Here the variant's own fields live in `Shape`, and the
chain sits beside it.

## Model

| member | source | states |
|---|---|---|
| `Mailbox.LastWriterWins` | src/lib.rs:475-477 | Of any run of writes to a cell before a take, the take observes only the last one and leaves the cell empty. |
| `Mailbox.TakeEmpties` | src/lib.rs:140-147 | A take hands over the cell's content and empties it, so a second take receives nothing. |
| `ViewportFit.CastU32` | src/lib.rs:187-190 | The saturating `as u32` cast: 0 for non-positive values, u32::MAX for values at or above it, and the floor in between. |
| `ViewportFit.FitAspect` | src/lib.rs:169-176 | The fitted size is no wider than the surface and has the viewport's aspect ratio (w·vh = h·vw). It uses the full height or the full width. For a positive viewport it is non-negative and no taller than the surface. |
| `ViewportFit.FitIsLargest` | src/lib.rs:171-176 | Every rectangle with the viewport's aspect ratio that fits the surface is no wider and no taller than the fitted size. |
| `ViewportFit.KeepAspectScalesDown` | src/lib.rs:178-182 | Both scale factors of the keep-aspect-ratio transformation lie in (0, 1], and at least one of them is 1. |
| `ViewportFit.WideViewportOnSquareSurface` | src/lib.rs:171-182 | A 4×2 viewport on an 800×800 surface fits to 800×400 and scales by (1, 0.5). |
| `ViewportFit.ScissorFor` | src/lib.rs:184-191 | For a fit that lies inside the surface, the scissor rectangle also lies inside the surface after the u32 casts. Each of its sides is the fitted side truncated to whole pixels. It is centered: the margins before and after it differ by at most two pixels. |
| `ViewportFit.ViewSetup` | src/lib.rs:162-201 | No preference and `LooseAspectRatio` both give the identity under the default draw state. A scissor is used exactly for `KeepAspectRatioAndScissorRemains`, and for a positive viewport it lies inside the surface. For both keep-aspect modes and a positive viewport, the transformation is a translation to the origin, a scale and a translation back. Both scale factors lie in (0, 1], at least one is 1, and the scaled surface has the viewport's aspect ratio. Any scissor covers exactly the scaled surface, truncated to whole pixels and centered. |
| `ViewportFit.KeepAspectSetup` | src/lib.rs:167-198 | Both keep-aspect modes give the same transformation, which has the properties listed for `ViewSetup`. Only `KeepAspectRatioAndScissorRemains` clips, to a rectangle covering the scaled surface. |
| `ViewportFit.FitKeepsAspect` | src/lib.rs:171-182 | The transformation built from the fit scales each axis by a factor in (0, 1], and the scaled surface has the viewport's aspect ratio. |
| `ViewportFit.ScissorCoversFit` | src/lib.rs:171-191 | Each side of the scissor rectangle is the scale factor times the surface side, truncated to whole pixels, and the rectangle is centered to within two pixels. |
| `ViewportFit.NegativeWidthScissor` | src/lib.rs:171-191 | A −3×1 viewport on a 10×10 surface fits to (−30, 10) and clips to `Scissor(20, 0, 0, 10)`. |
| `Scene.PolylineSegments` | src/lib.rs:251-267 | A polyline of n ≥ 1 points emits n − 1 segments, and an empty one emits none. |
| `Scene.PolylineJoinsPointsInOrder` | src/lib.rs:254-265 | Segment i joins point i to point i + 1. The segments form a chain from the first point to the last. |
| `Scene.PolygonBorder` | src/lib.rs:417-432 | A border of n points emits n segments. |
| `Scene.BorderClosesPolyline` | src/lib.rs:421-431 | A border is the polyline through the same points, followed by the segment from the last point back to the first. |
| `Scene.BorderIsClosedLoop` | src/lib.rs:421-431 | A border is a chain that ends at its first point. |
| `Scene.RenderedPolylineJoinsPoints` | src/lib.rs:251-267 | A polyline leaf of n ≥ 2 points draws n − 1 chained segments in its line colour and width. Segment i joins point i to point i + 1. |
| `Scene.RenderedPolygonIsFilledAndClosed` | src/lib.rs:268-356 | A triangle leaf, or a polygon leaf of n ≥ 1 points, draws the filled polygon first. It then draws n border segments in the border colour and width. These form a chain that ends at the first point. |
| `Scene.RenderShape` | src/lib.rs:222-402 | Every command of a non-point leaf is drawn under the given draw state with exactly the leaf's own chain. A point draws a single outline-free ellipse, unclipped, with the context transform. |
| `Scene.BoxesAroundCenter` | src/lib.rs:293-402 | A square, rectangle, circle or ellipse draws exactly one command. It is filled with the shape's fill colour and has its border colour and width: a rectangle's border for squares and rectangles, an ellipse's outline for circles and ellipses. Square, rectangle and circle boxes are centered on the given center, and a circle's box is 2r on each side. An ellipse's box subtracts the full size, so its center lies half a size before the given one. |
| `Scene.RenderGeometry` | src/lib.rs:215-415 | Every command of a scene graph, at any depth, is drawn under the draw state it was given with a chain, except a point's outline-free ellipse, which is unclipped. |
| `Scene.RenderAll` | src/lib.rs:403-413 | Every command of a list of nodes respects the draw state it was given. |
| `Scene.RenderAllConcat` | src/lib.rs:404-412 | Drawing a concatenation of node lists draws the first list, then the second. |
| `Scene.RenderIsLeafwise` | src/lib.rs:403-413 | A scene graph draws exactly what its flattened list of leaves draws, in the same order, however deeply its groups nest. |
| `Scene.RenderAllIsLeafwise` | src/lib.rs:403-413 | A list of nodes draws exactly what its flattened list of leaves draws. |
| `Scene.NestedGroupExample` | src/lib.rs:222-413 | A group holding a point, a nested group holding a line, and an empty group draws exactly the point and then the line. |
| `Scene.AppendedTransformReachesEveryShape` | src/lib.rs:203-211 | After the top-level transformation is appended to a geometry, every shape drawn from it uses a chain that ends in that transformation. `Scene.AppendLeaves` states the exact chain. |
| `Scene.RenderFrame` | src/lib.rs:153-213 | A frame starts with a clear to white, and every later command respects the draw state that the view set-up chose. |
| `Scene.AppendLeaves` | src/lib.rs:209-210 | Appending the top-level transformation to a geometry keeps its leaves, their shapes and their order. Each leaf's chain becomes its own chain followed by that transformation. |
| `Scene.AppendLeavesAll` | src/lib.rs:203-211 | The same holds for a list of geometries, whose leaves are collected in order. |
| `Scene.FrameDrawsEveryLeaf` | src/lib.rs:160-211 | A frame is the clear to white, followed by what every leaf of every top-level geometry draws, depth first and in order. Each leaf is drawn under the set-up's draw state, with the set-up's transformation appended to its own chain. |
| `Scene.FrameUsesViewSetup` | src/lib.rs:160-212 | Every shape of a frame ends its chain with the view set-up's transformation. With no preference or a loose aspect ratio, that transformation is the identity under the default draw state. |
| `Scene.UsizeSub` | src/lib.rs:254 | A usize subtraction succeeds exactly when it does not underflow, and then it gives the difference. |
| `Scene.PolylineAsWritten` | src/lib.rs:254-266 | The polyline loop as written panics exactly on an empty polyline. |
| `Scene.EmptyPolylinePanics` | src/lib.rs:254 | The loop as written panics on `[]`, where `PolylineSegments` draws nothing. On every non-empty polyline the two agree. |
| `Visualiser.RunIsValid` | src/lib.rs:75-103 | A fresh handle satisfies the invariant and is open. Its geometry cell holds the empty list and its view cell is empty. |
| `Visualiser.RenderTwoDimensional` | src/lib.rs:461-490 | The call fails exactly when either environment request fails. It then returns the view request's error if that request failed, else the geometry request's error, and changes nothing. On success each cell is written iff its new value differs from the last one written, and the new value is remembered as the last one. The render thread and the lifecycle flags are untouched. |
| `Visualiser.RenderTwoDimensionalKeepsValid` | src/lib.rs:474-487 | A producer call keeps the invariant. |
| `Visualiser.IdenticalRenderWritesOnce` | src/lib.rs:474-487 | A call whose output matches what was last written writes neither cell and changes nothing, even if the render thread took the cells in between. |
| `Visualiser.RenderTwoDimensionalIdempotent` | src/lib.rs:474-487 | Repeating a call with the same environment leaves the state as it was after the first call. |
| `Visualiser.FirstRender` | src/lib.rs:461-489 | Before anything has been published, the first successful call always writes the view cell. This holds in any valid state, whether or not the render thread has already taken the cells. An empty first scene is never written; the geometry cell keeps what it held, an empty list or nothing. |
| `Visualiser.ThreadStart` | src/lib.rs:115-121 | The thread starts from the last written geometries and view, or from the empty list if the geometry cell is empty. Both cells are left empty. |
| `Visualiser.ThreadStartKeepsValid` | src/lib.rs:115-121 | The thread's start keeps the invariant. |
| `Visualiser.LoopStep` | src/lib.rs:123-150 | The loop ends, setting `closed`, exactly when the window yields no event or was asked to close. A frame is drawn exactly on a handled render tick, and it is the frame of the geometries and view the thread held before this iteration's take. After a close request no cell is taken and the window is asked to close. Otherwise both cells are taken and an empty cell keeps the thread's old value. The producer's fields are untouched. |
| `Visualiser.LoopStepKeepsValid` | src/lib.rs:123-150 | A loop iteration keeps the invariant. |
| `Visualiser.LoopStepDeliversLatest` | src/lib.rs:137-148 | An iteration that continues without a close request leaves the thread holding exactly the last written geometries and view. |
| `Visualiser.SecondPublishWins` | src/lib.rs:140-147 | Of two successful producer calls before the next iteration, only the second one's scene and view reach the thread. |
| `Visualiser.Close` | src/lib.rs:447-455 | The first close gives up the join handle and requests the close. It succeeds iff the join succeeds, and otherwise reports `CloseCouldNotJoinRenderThread` with the fixed text `Any { .. }`. That text is the `Debug` form of the panic payload, so the panic message itself is lost. Later closes succeed and change nothing. |
| `Visualiser.CloseKeepsValid` | src/lib.rs:447-455 | A close keeps the invariant. |
| `Visualiser.CloseIsIdempotent` | src/lib.rs:447-455 | After the first close, every further close returns `Ok(())` and changes nothing, whatever the join would report. |
| `Visualiser.CloseRequestEndsLoop` | src/lib.rs:137-150 | Once a close is requested, the loop takes no more cells and ends within two iterations. `closed` becomes true only at that end. |
| `Visualiser.OpenUntilLoopEnds` | src/lib.rs:443-445 | `is_open` holds exactly until the render loop has ended. |

## Left out

- Window creation and the panic when it fails (src/lib.rs:110-113): the model's thread starts directly with the first take of the cells.
- The window's event source: `window.next()` is the `incoming` parameter of `Visualiser.LoopStep`. It yields nothing once the window has been asked to close.
- Input events (src/lib.rs:132-134): their handling is an empty TODO, so an input event changes nothing in the model.
- Lock poisoning: the render thread's `expect` panics and the producer's `LockingFailedInternally` error (src/lib.rs:115-121, 140-147, 475-476, 483-484). A lock operation always succeeds in the model, so that error variant is not modelled.
- Real threads, `Arc` and the `Relaxed` atomic orderings: a whole producer call, the thread's start, a whole loop iteration and a close are each one atomic step of a sequential state machine.
- Torn geometry/view pairs: the two cells have separate mutexes (src/lib.rs:140-147, 475-486), so in the source a producer call can land between the thread's geometry take and its view take, leaving the thread for one frame with new geometries and the old view, or the reverse. The coarser steps rule this out, so `Visualiser.LoopStepDeliversLatest` and `Visualiser.SecondPublishWins` hold only at this granularity.
- Visualiser.Close: the model does not wait for the render thread to finish. Whether the join succeeds is a parameter.
- The `Display` impls are `todo!()` (src/lib.rs:31-33, 47-49).
- Base-crate code whose source is not part of this model:
  - `Geometry2D::transform` and `Position2D::transform` are function parameters (`Visualiser.Retarget`, `Scene.Locate`).
  - `append_transformation` is modelled as appending to every leaf's chain. A group has no chain of its own.
  - `Transformation2D` constructors and `vector_to` stay symbolic (`Geometry.Transformation`).
  - `transformation_matrix` and `matrix_3x3_as_matrix_3x2` are replaced by the chain itself (`Scene.DrawTransform`).
- Piston drawing: each draw call is recorded as a `Scene.Command`. The line shape is always round, so it is not recorded.
- Floating point: every f64 is a real. A zero viewport height, or a zero surface width or height, would make f64 produce infinity or NaN in the keep-aspect-ratio branch. The model excludes these cases through `ViewportFit.Drawable`, a precondition of `Scene.RenderFrame` and `Visualiser.LoopStep`.
- The source does not guard against a zero or negative viewport size in the keep-aspect-ratio branch; the model follows it and adds no identity fallback.
- `context.viewport.unwrap()` (src/lib.rs:169, 225) is assumed to succeed. Its i32 rectangle sizes are taken to be non-negative (`ViewportFit.Context`).
- `Line` and `Triangle` take their 2 and 3 points as separate fields, not as fixed-size arrays.
- A point's pixel position depends on `draw_size`; it is recorded through the formula `Scene.PointRect`.
- ViewportFit.ScissorFor: inside-the-surface is proved only when the fitted size lies inside the surface. That holds for a positive viewport (see `ViewportFit.FitAspect`). For a viewport negative in one dimension, the fitted size is negative in that dimension. That size's cast saturates at zero, while its offset (W − w) / 2 grows past the surface (`ViewportFit.NegativeWidthScissor`). A viewport negative in both dimensions has a positive ratio and fits like a positive one.
- ViewportFit.ScissorFor: the whole-pixel size and centering are stated for surfaces of at most u32::MAX pixels per side. The surface sizes come from i32 values, so every real surface meets this.
- The `closed` flag is shared through an `Arc`, so the handle owns it. No weak-reference behaviour is modelled.
- There is no background colour, texture cache or input queue in `src/lib.rs`. Frames are always cleared to white.

## Findings

| source | as written | input that shows it | evidently intended | confidence | as-written member | corrected member |
|---|---|---|---|---|---|---|
| src/lib.rs:254 | `for index in 0..(points.len() - 1)` computes the loop bound as a usize subtraction. | A `Polyline` with no points. The subtraction underflows, which panics in a debug build; a release build wraps and then panics indexing `points[0]`. Either way the render thread dies, so `closed` is never set and `is_open` stays true. | An empty polyline draws nothing. | medium, not executed | `Scene.PolylineAsWritten` (exhibited by `Scene.EmptyPolylinePanics`) | `Scene.PolylineSegments` (used by `Scene.RenderShape`; `Scene.PolylineJoinsPointsInOrder`) |

=== FILE: geometry.dfy ===
/** The scene-graph values the visualiser receives from the environment.
    They come from the base crate; only their shape is modelled here, with
    every f64 idealised as a `real`. */
module Geometry {

  datatype Position = Position(x: real, y: real)

  datatype Size = Size(width: real, height: real)

  /** An RGBA colour; `float_array` is the identity on this representation. */
  datatype Color = Color(red: real, green: real, blue: real, alpha: real)

  /** A logical viewport: a center and a size, in logical units. */
  datatype Viewport = Viewport(center: Position, size: Size)

  /** How the logical viewport is fitted onto the draw surface. */
  datatype Modification =
    | LooseAspectRatio
    | KeepAspectRatio
    | KeepAspectRatioAndScissorRemains

  /** What the environment's `preferred_view` returns. */
  datatype PreferredView = PreferredView(viewport: Viewport, modification: Modification)

  /** A 2D affine transformation, kept symbolic: the matrices behind these
      constructors belong to the base crate and are not computed here.
      `Translation(source, target)` translates by the vector from `source`
      to `target`. */
  datatype Transformation =
    | Identity
    | Translation(source: Position, target: Position)
    | Scale(sx: real, sy: real)
    | Composition(name: string, parts: seq<Transformation>)

  /** The drawable variants of the base crate's `Geometry2D`, without their
      transformation chain. */
  datatype Shape =
    | Point(position: Position, color: Color)
    | Line(start: Position, finish: Position, lineColor: Color, lineWidth: real)
    | Polyline(points: seq<Position>, lineColor: Color, lineWidth: real)
    | Triangle(first: Position, second: Position, third: Position,
               fillColor: Color, borderColor: Color, borderWidth: real)
    | Square(centerPosition: Position, edgeLength: real,
             fillColor: Color, borderColor: Color, borderWidth: real)
    | Rectangle(centerPosition: Position, size: Size,
                fillColor: Color, borderColor: Color, borderWidth: real)
    | Polygon(points: seq<Position>,
              fillColor: Color, borderColor: Color, borderWidth: real)
    | Circle(centerPosition: Position, radius: real,
             fillColor: Color, borderColor: Color, borderWidth: real)
    | Ellipse(centerPosition: Position, size: Size,
              fillColor: Color, borderColor: Color, borderWidth: real)

  /** A scene-graph node: a drawable shape with its own chain of
      transformations (applied in order), or a group of child nodes, which
      has no chain of its own. Equality is structural. */
  datatype Geometry =
    | Leaf(shape: Shape, transformations: seq<Transformation>)
    | Group(children: seq<Geometry>)

  const Origin: Position := Position(0.0, 0.0)

  /** The canonical render space every scene is mapped into: centered on the
      origin, 2 by 2. */
  function WindowViewport(): Viewport {
    Viewport(Position(0.0, 0.0), Size(2.0, 2.0))
  }

  /** Appends `t` to the transformation chain of every leaf of `g`. The base
      crate's `append_transformation` is not part of this model; a group has
      no chain of its own, so the transformation is pushed to its leaves. */
  function AppendTransformation(g: Geometry, t: Transformation): (r: Geometry)
    decreases g
  {
    match g
    case Leaf(shape, chain) => Leaf(shape, chain + [t])
    case Group(children) => Group(AppendTransformationAll(children, t))
  }

  function AppendTransformationAll(gs: seq<Geometry>, t: Transformation): (r: seq<Geometry>)
    decreases gs
  {
    if |gs| == 0 then []
    else [AppendTransformation(gs[0], t)] + AppendTransformationAll(gs[1..], t)
  }
}

=== FILE: mailbox.dfy ===
/** The shared single-slot cells between the producer and the render thread
    (`Arc<Mutex<Option<T>>>`). Each operation is one atomic step taken under
    the lock. */
module Mailbox {
  import opened Wrappers

  type Slot<T> = Option<T>

  /** `*locked = Some(v)`: a write replaces whatever the slot held, whether
      or not it was read. */
  function Write<T>(slot: Slot<T>, v: T): Slot<T> {
    Some(v)
  }

  /** What a take hands to the reader, and the slot it leaves behind. */
  datatype Taken<T> = Taken(received: Option<T>, slot: Slot<T>)

  /** `Option::take` under the lock: the reader receives the content and the
      slot is left empty. */
  function Take<T>(slot: Slot<T>): Taken<T> {
    Taken(slot, None)
  }

  /** A run of writes with no take in between. */
  function WriteAll<T>(slot: Slot<T>, vs: seq<T>): Slot<T>
    decreases |vs|
  {
    if |vs| == 0 then slot else WriteAll(Write(slot, vs[0]), vs[1..])
  }

  /** Of any run of writes before a take, the take observes only the last
      one, and leaves the slot empty. */
  lemma {:induction false} LastWriterWins<T>(slot: Slot<T>, vs: seq<T>)
    requires |vs| > 0
    ensures Take(WriteAll(slot, vs)).received == Some(vs[|vs| - 1])
    ensures Take(WriteAll(slot, vs)).slot == None
    decreases |vs|
  {
    if |vs| > 1 {
      LastWriterWins(Write(slot, vs[0]), vs[1..]);
    }
  }

  /** A take empties the slot: a second take right after it receives
      nothing. */
  lemma TakeEmpties<T>(slot: Slot<T>)
    ensures Take(slot).slot.None?
    ensures Take(Take(slot).slot).received.None?
    ensures Take(slot).received == slot
  {
  }
}

=== FILE: scene.dfy ===
/** `render` and `render_geometry_2d`: how one frame turns the held geometry
    list into primitive draw commands. The backend's draw calls are not
    made; each one is recorded as a `Command` with the arguments it would
    receive. */
module Scene {
  import opened Wrappers
  import opened Geometry
  import opened ViewportFit

  /** A rectangle `[x, y, width, height]` as the backend receives it. */
  datatype Rect = Rect(x: real, y: real, width: real, height: real)

  datatype Border = Border(color: Color, radius: real)

  /** The matrix a primitive is drawn with: the 3x2 matrix of a leaf's
      transformation chain (computed by the base crate, kept symbolic here),
      or the context's own transform, which points use. */
  datatype DrawTransform =
    | Chain(transformations: seq<Transformation>)
    | ContextTransform

  /** One backend call. Every line is drawn with the round shape. */
  datatype Command =
    | Clear(color: Color)
    | DrawLine(color: Color, width: real, start: Position, finish: Position,
               state: DrawState, transform: DrawTransform)
    | DrawPolygon(color: Color, points: seq<Position>,
                  state: DrawState, transform: DrawTransform)
    | DrawRectangle(color: Color, border: Border, rect: Rect,
                    state: DrawState, transform: DrawTransform)
    | DrawEllipse(color: Color, outline: Option<Border>, rect: Rect,
                  state: DrawState, transform: DrawTransform)

  /** The colour every frame is cleared to, `[1.0; 4]`. */
  const White: Color := Color(1.0, 1.0, 1.0, 1.0)

  /** The base crate's `Position2D::transform`, applying a transformation
      chain to a position. It is not part of this model, so the renderer
      takes it as a parameter. */
  type Locate = (Position, seq<Transformation>) -> Position

  /** Each segment ends where the next one starts. */
  predicate Chained(segments: seq<Command>) {
    && (forall i :: 0 <= i < |segments| ==> segments[i].DrawLine?)
    && (forall i :: 0 <= i < |segments| - 1 ==> segments[i].finish == segments[i + 1].start)
  }

  /** The segments of a polyline: one per pair of consecutive points. An empty
      polyline draws nothing (see `PolylineAsWritten` for the source's
      behaviour on that input). */
  function PolylineSegments(points: seq<Position>, color: Color, width: real,
                            state: DrawState, transform: DrawTransform): (r: seq<Command>)
    ensures |r| == if |points| == 0 then 0 else |points| - 1
  {
    if |points| == 0 then []
    else seq(|points| - 1, i requires 0 <= i < |points| - 1 =>
           DrawLine(color, width, points[i], points[i + 1], state, transform))
  }

  /** `draw_polygon_border`: one segment from every point to the next, the
      index taken modulo the number of points, so the last segment returns to
      the first point. */
  function PolygonBorder(points: seq<Position>, color: Color, width: real,
                         state: DrawState, transform: DrawTransform): (r: seq<Command>)
    ensures |r| == |points|
  {
    seq(|points|, i requires 0 <= i < |points| =>
      DrawLine(color, width, points[i % |points|], points[(i + 1) % |points|], state, transform))
  }

  /** The pixel rectangle of a point: the transformed position mapped from
      the canonical [-1, 1] square onto the draw size, one pixel wide. */
  function PointRect(p: Position, ctx: Context): Rect {
    Rect((p.x + 1.0) / 2.0 * ctx.drawWidth as real,
         (p.y + 1.0) / 2.0 * ctx.drawHeight as real, 1.0, 1.0)
  }

  /** A command respects the draw state `ds` the renderer was given: it is
      drawn under `ds` with a chain, or it is a point (an ellipse without an
      outline), which is drawn unclipped with the context transform. */
  predicate DrawnUnder(c: Command, ds: DrawState) {
    && !c.Clear?
    && ((c.state == ds && c.transform.Chain?)
        || (c.DrawEllipse? && c.outline.None? && c.state == DefaultState && c.transform == ContextTransform))
  }

  /** The commands of one leaf. */
  function RenderShape(ctx: Context, ds: DrawState, shape: Shape,
                       chain: seq<Transformation>, locate: Locate): (r: seq<Command>)
    ensures forall i :: 0 <= i < |r| ==> DrawnUnder(r[i], ds)
    ensures !shape.Point? ==> forall i :: 0 <= i < |r| ==> !r[i].Clear? && r[i].state == ds && r[i].transform == Chain(chain)
    ensures shape.Point? ==>
              && |r| == 1 && r[0].DrawEllipse? && r[0].outline.None?
              && r[0].state == DefaultState && r[0].transform == ContextTransform
  {
    var m := Chain(chain);
    match shape
    case Point(position, color) =>
      [DrawEllipse(color, None, PointRect(locate(position, chain), ctx), DefaultState, ContextTransform)]
    case Line(start, finish, color, width) =>
      [DrawLine(color, width, start, finish, ds, m)]
    case Polyline(points, color, width) =>
      PolylineSegments(points, color, width, ds, m)
    case Triangle(a, b, c, fill, border, borderWidth) =>
      [DrawPolygon(fill, [a, b, c], ds, m)] + PolygonBorder([a, b, c], border, borderWidth, ds, m)
    case Square(center, edge, fill, border, borderWidth) =>
      [DrawRectangle(fill, Border(border, borderWidth),
                     Rect(center.x - edge / 2.0, center.y - edge / 2.0, edge, edge), ds, m)]
    case Rectangle(center, size, fill, border, borderWidth) =>
      [DrawRectangle(fill, Border(border, borderWidth),
                     Rect(center.x - size.width / 2.0, center.y - size.height / 2.0,
                          size.width, size.height), ds, m)]
    case Polygon(points, fill, border, borderWidth) =>
      [DrawPolygon(fill, points, ds, m)] + PolygonBorder(points, border, borderWidth, ds, m)
    case Circle(center, radius, fill, border, borderWidth) =>
      [DrawEllipse(fill, Some(Border(border, borderWidth)),
                   Rect(center.x - radius, center.y - radius, 2.0 * radius, 2.0 * radius), ds, m)]
    case Ellipse(center, size, fill, border, borderWidth) =>
      [DrawEllipse(fill, Some(Border(border, borderWidth)),
                   Rect(center.x - size.width, center.y - size.height, size.width, size.height), ds, m)]
  }

  /** `render_geometry_2d`: a leaf draws its shape, a group draws its children
      in order under the same draw state. */
  function RenderGeometry(ctx: Context, ds: DrawState, g: Geometry, locate: Locate): (r: seq<Command>)
    ensures forall i :: 0 <= i < |r| ==> DrawnUnder(r[i], ds)
    decreases g
  {
    match g
    case Leaf(shape, chain) => RenderShape(ctx, ds, shape, chain, locate)
    case Group(children) => RenderAll(ctx, ds, children, locate)
  }

  function RenderAll(ctx: Context, ds: DrawState, gs: seq<Geometry>, locate: Locate): (r: seq<Command>)
    ensures forall i :: 0 <= i < |r| ==> DrawnUnder(r[i], ds)
    decreases gs
  {
    if |gs| == 0 then []
    else RenderGeometry(ctx, ds, gs[0], locate) + RenderAll(ctx, ds, gs[1..], locate)
  }

  /** `render`: clear to white, derive the draw state and top-level
      transformation from the preferred view, then draw every geometry with
      that transformation appended to its chain. */
  function RenderFrame(ctx: Context, geometries: seq<Geometry>, view: Option<PreferredView>,
                       locate: Locate): (frame: seq<Command>)
    requires Drawable(ctx, view)
    ensures |frame| >= 1 && frame[0] == Clear(White)
    ensures forall i :: 1 <= i < |frame| ==> DrawnUnder(frame[i], ViewSetup(ctx, view).state)
  {
    var setup := ViewSetup(ctx, view);
    [Clear(White)] + RenderAll(ctx, setup.state, AppendTransformationAll(geometries, setup.transform), locate)
  }

  /* ---- Groups ---- */

  /** The leaves of a scene graph, depth first, in drawing order. */
  function Leaves(g: Geometry): (r: seq<Geometry>)
    ensures forall i :: 0 <= i < |r| ==> r[i].Leaf?
    decreases g
  {
    match g
    case Leaf(_, _) => [g]
    case Group(children) => LeavesAll(children)
  }

  function LeavesAll(gs: seq<Geometry>): (r: seq<Geometry>)
    ensures forall i :: 0 <= i < |r| ==> r[i].Leaf?
    decreases gs
  {
    if |gs| == 0 then [] else Leaves(gs[0]) + LeavesAll(gs[1..])
  }

  /** Drawing a concatenation draws the first part, then the second. */
  lemma {:induction false} RenderAllConcat(ctx: Context, ds: DrawState, a: seq<Geometry>,
                                           b: seq<Geometry>, locate: Locate)
    ensures RenderAll(ctx, ds, a + b, locate) == RenderAll(ctx, ds, a, locate) + RenderAll(ctx, ds, b, locate)
    decreases a
  {
    if |a| == 0 {
      assert a + b == b;
    } else {
      assert (a + b)[1..] == a[1..] + b;
      RenderAllConcat(ctx, ds, a[1..], b, locate);
    }
  }

  /** Grouping is invisible in the output: a scene graph draws exactly what
      its flattened list of leaves draws, in the same order and under the
      same draw state, however deeply the groups nest. */
  lemma {:induction false} RenderIsLeafwise(ctx: Context, ds: DrawState, g: Geometry, locate: Locate)
    ensures RenderGeometry(ctx, ds, g, locate) == RenderAll(ctx, ds, Leaves(g), locate)
    decreases g
  {
    match g
    case Leaf(_, _) =>
      assert [g][1..] == [];
    case Group(children) =>
      RenderAllIsLeafwise(ctx, ds, children, locate);
  }

  lemma {:induction false} RenderAllIsLeafwise(ctx: Context, ds: DrawState, gs: seq<Geometry>, locate: Locate)
    ensures RenderAll(ctx, ds, gs, locate) == RenderAll(ctx, ds, LeavesAll(gs), locate)
    decreases gs
  {
    if |gs| > 0 {
      RenderIsLeafwise(ctx, ds, gs[0], locate);
      RenderAllIsLeafwise(ctx, ds, gs[1..], locate);
      RenderAllConcat(ctx, ds, Leaves(gs[0]), LeavesAll(gs[1..]), locate);
    }
  }

  /** A group holding a point, a nested group holding a line, and an empty
      group draws exactly the point and then the line. */
  lemma NestedGroupExample(ctx: Context, ds: DrawState, p: Position, a: Position, b: Position,
                           c: Color, chain: seq<Transformation>, locate: Locate)
    ensures var scene := Group([Leaf(Point(p, c), chain),
                                Group([Leaf(Line(a, b, c, 1.0), chain)]),
                                Group([])]);
            RenderGeometry(ctx, ds, scene, locate) ==
              [DrawEllipse(c, None, PointRect(locate(p, chain), ctx), DefaultState, ContextTransform),
               DrawLine(c, 1.0, a, b, ds, Chain(chain))]
  {
    var scene := Group([Leaf(Point(p, c), chain),
                        Group([Leaf(Line(a, b, c, 1.0), chain)]),
                        Group([])]);
    var point := Leaf(Point(p, c), chain);
    var inner := Group([Leaf(Line(a, b, c, 1.0), chain)]);
    var empty := Group([]);
    assert scene.children[1..] == [inner, empty];
    assert scene.children[1..][1..] == [empty];
    assert RenderGeometry(ctx, ds, empty, locate) == [];
    assert RenderAll(ctx, ds, [empty], locate) == [];
    var line := Leaf(Line(a, b, c, 1.0), chain);
    assert inner.children[1..] == [];
    assert RenderGeometry(ctx, ds, line, locate) == [DrawLine(c, 1.0, a, b, ds, Chain(chain))];
    assert RenderAll(ctx, ds, [line], locate) == RenderGeometry(ctx, ds, line, locate);
    assert RenderAll(ctx, ds, [inner, empty], locate) == RenderGeometry(ctx, ds, inner, locate);
    assert RenderGeometry(ctx, ds, point, locate) ==
             [DrawEllipse(c, None, PointRect(locate(p, chain), ctx), DefaultState, ContextTransform)];
    assert RenderGeometry(ctx, ds, scene, locate) == RenderAll(ctx, ds, [point, inner, empty], locate);
    assert RenderAll(ctx, ds, [point, inner, empty], locate) ==
             RenderGeometry(ctx, ds, point, locate) + RenderAll(ctx, ds, [inner, empty], locate);
  }

  /* ---- The top-level transformation ---- */

  predicate EndsWith(chain: seq<Transformation>, t: Transformation) {
    |chain| > 0 && chain[|chain| - 1] == t
  }

  /** Every command drawn with a chain draws with one that ends in `t`. */
  predicate ChainsEndWith(commands: seq<Command>, t: Transformation) {
    forall i :: 0 <= i < |commands| && !commands[i].Clear? && commands[i].transform.Chain? ==>
      EndsWith(commands[i].transform.transformations, t)
  }

  lemma ChainsEndWithConcat(a: seq<Command>, b: seq<Command>, t: Transformation)
    requires ChainsEndWith(a, t) && ChainsEndWith(b, t)
    ensures ChainsEndWith(a + b, t)
  {
    forall i | 0 <= i < |a + b| && !(a + b)[i].Clear? && (a + b)[i].transform.Chain?
      ensures EndsWith((a + b)[i].transform.transformations, t)
    {
      if i < |a| { assert (a + b)[i] == a[i]; } else { assert (a + b)[i] == b[i - |a|]; }
    }
  }

  /** Every shape of a geometry to which `t` was appended is drawn with a
      chain that ends in `t`. */
  lemma {:induction false} AppendedTransformReachesEveryShape(
    ctx: Context, ds: DrawState, g: Geometry, t: Transformation, locate: Locate)
    ensures ChainsEndWith(RenderGeometry(ctx, ds, AppendTransformation(g, t), locate), t)
    decreases g
  {
    match g
    case Leaf(shape, chain) =>
    case Group(children) =>
      assert AppendTransformation(g, t) == Group(AppendTransformationAll(children, t));
      AppendedTransformReachesAll(ctx, ds, children, t, locate);
  }

  lemma {:induction false} AppendedTransformReachesAll(
    ctx: Context, ds: DrawState, gs: seq<Geometry>, t: Transformation, locate: Locate)
    ensures ChainsEndWith(RenderAll(ctx, ds, AppendTransformationAll(gs, t), locate), t)
    decreases gs
  {
    if |gs| > 0 {
      var appended := AppendTransformationAll(gs, t);
      assert appended[0] == AppendTransformation(gs[0], t);
      assert appended[1..] == AppendTransformationAll(gs[1..], t);
      AppendedTransformReachesEveryShape(ctx, ds, gs[0], t, locate);
      AppendedTransformReachesAll(ctx, ds, gs[1..], t, locate);
      ChainsEndWithConcat(RenderGeometry(ctx, ds, appended[0], locate),
                          RenderAll(ctx, ds, appended[1..], locate), t);
    }
  }

  /** Every shape of a frame is drawn with the top-level transformation that
      the preferred view selects at the end of its chain; without a
      preference, or with a loose aspect ratio, that is the identity, under
      the default draw state. */
  lemma FrameUsesViewSetup(ctx: Context, geometries: seq<Geometry>, view: Option<PreferredView>,
                           locate: Locate)
    requires Drawable(ctx, view)
    ensures ChainsEndWith(RenderFrame(ctx, geometries, view, locate)[1..], ViewSetup(ctx, view).transform)
    ensures view.None? || view.value.modification == LooseAspectRatio ==>
              var shapes := RenderFrame(ctx, geometries, view, locate)[1..];
              && ChainsEndWith(shapes, Identity)
              && forall i :: 0 <= i < |shapes| ==> shapes[i].state == DefaultState
  {
    var setup := ViewSetup(ctx, view);
    var frame := RenderFrame(ctx, geometries, view, locate);
    assert frame[1..] == RenderAll(ctx, setup.state, AppendTransformationAll(geometries, setup.transform), locate);
    AppendedTransformReachesAll(ctx, setup.state, geometries, setup.transform, locate);
  }

  /** A flat list of leaves, each with `t` appended to its own chain. */
  function AppendToLeaves(leaves: seq<Geometry>, t: Transformation): (r: seq<Geometry>)
    requires forall i :: 0 <= i < |leaves| ==> leaves[i].Leaf?
    ensures |r| == |leaves|
  {
    seq(|leaves|, i requires 0 <= i < |leaves| =>
      Leaf(leaves[i].shape, leaves[i].transformations + [t]))
  }

  /** Appending to a scene graph appends to each of its leaves' own chains
      and keeps the leaves, their shapes and their order. */
  lemma {:induction false} AppendLeaves(g: Geometry, t: Transformation)
    ensures Leaves(AppendTransformation(g, t)) == AppendToLeaves(Leaves(g), t)
    decreases g
  {
    match g
    case Leaf(_, _) =>
    case Group(children) =>
      AppendLeavesAll(children, t);
  }

  lemma {:induction false} AppendLeavesAll(gs: seq<Geometry>, t: Transformation)
    ensures LeavesAll(AppendTransformationAll(gs, t)) == AppendToLeaves(LeavesAll(gs), t)
    decreases gs
  {
    if |gs| > 0 {
      var appended := AppendTransformationAll(gs, t);
      assert appended[0] == AppendTransformation(gs[0], t);
      assert appended[1..] == AppendTransformationAll(gs[1..], t);
      AppendLeaves(gs[0], t);
      AppendLeavesAll(gs[1..], t);
      var a := Leaves(gs[0]);
      var b := LeavesAll(gs[1..]);
      assert LeavesAll(gs) == a + b;
      assert AppendToLeaves(a + b, t) == AppendToLeaves(a, t) + AppendToLeaves(b, t);
    }
  }

  /** A frame clears to white and then draws every leaf of every top-level
      geometry, depth first and in order, under the set-up's draw state, each
      with the set-up's transformation appended to its own chain. */
  lemma FrameDrawsEveryLeaf(ctx: Context, geometries: seq<Geometry>, view: Option<PreferredView>,
                            locate: Locate)
    requires Drawable(ctx, view)
    ensures var setup := ViewSetup(ctx, view);
            RenderFrame(ctx, geometries, view, locate)
              == [Clear(White)] + RenderAll(ctx, setup.state,
                                            AppendToLeaves(LeavesAll(geometries), setup.transform), locate)
  {
    var setup := ViewSetup(ctx, view);
    var appended := AppendTransformationAll(geometries, setup.transform);
    RenderAllIsLeafwise(ctx, setup.state, appended, locate);
    AppendLeavesAll(geometries, setup.transform);
  }

  /* ---- Polylines and polygon borders ---- */

  /** A polyline of n >= 1 points draws n - 1 segments that join its points in
      order: the chain starts at the first point and ends at the last. */
  lemma PolylineJoinsPointsInOrder(points: seq<Position>, color: Color, width: real,
                                   ds: DrawState, m: DrawTransform)
    requires |points| >= 2
    ensures var r := PolylineSegments(points, color, width, ds, m);
            && Chained(r)
            && r[0].start == points[0]
            && r[|r| - 1].finish == points[|points| - 1]
            && forall i :: 0 <= i < |r| ==> r[i].start == points[i] && r[i].finish == points[i + 1]
  {
  }

  /** A polygon border of n points is a closed loop of n segments: it is the
      polyline through the same points followed by the segment from the last
      point back to the first. */
  lemma {:induction false} BorderClosesPolyline(points: seq<Position>, color: Color, width: real,
                                                ds: DrawState, m: DrawTransform)
    requires |points| >= 1
    ensures PolygonBorder(points, color, width, ds, m) ==
              PolylineSegments(points, color, width, ds, m)
                + [DrawLine(color, width, points[|points| - 1], points[0], ds, m)]
  {
    var n := |points|;
    var border := PolygonBorder(points, color, width, ds, m);
    var open := PolylineSegments(points, color, width, ds, m);
    var line := open + [DrawLine(color, width, points[n - 1], points[0], ds, m)];
    assert |border| == |line| == n;
    forall i | 0 <= i < n
      ensures border[i] == line[i]
    {
      if i < n - 1 {
        ModuloBelow(i, n);
        ModuloBelow(i + 1, n);
        assert border[i] == DrawLine(color, width, points[i], points[i + 1], ds, m);
        assert line[i] == open[i];
      } else {
        ModuloBelow(i, n);
        assert (i + 1) % n == 0;
        assert border[i] == DrawLine(color, width, points[n - 1], points[0], ds, m);
      }
    }
  }

  lemma ModuloBelow(i: int, n: int)
    requires 0 <= i < n
    ensures i % n == i
  {
  }

  /** Hence a border is chained and ends where it starts. */
  lemma BorderIsClosedLoop(points: seq<Position>, color: Color, width: real,
                           ds: DrawState, m: DrawTransform)
    requires |points| >= 1
    ensures var r := PolygonBorder(points, color, width, ds, m);
            && Chained(r)
            && r[|r| - 1].finish == r[0].start == points[0]
  {
    BorderClosesPolyline(points, color, width, ds, m);
    if |points| >= 2 {
      PolylineJoinsPointsInOrder(points, color, width, ds, m);
    }
  }

  /** A polyline leaf of n >= 2 points draws n - 1 chained segments in its
      line colour and width, segment i joining point i to point i + 1. */
  lemma RenderedPolylineJoinsPoints(ctx: Context, ds: DrawState, shape: Shape,
                                    chain: seq<Transformation>, locate: Locate)
    requires shape.Polyline? && |shape.points| >= 2
    ensures var r := RenderShape(ctx, ds, shape, chain, locate);
            var pts := shape.points;
            && |r| == |pts| - 1
            && Chained(r)
            && r[0].start == pts[0] && r[|r| - 1].finish == pts[|pts| - 1]
            && forall i :: 0 <= i < |r| ==>
                 && r[i].start == pts[i] && r[i].finish == pts[i + 1]
                 && r[i].color == shape.lineColor && r[i].width == shape.lineWidth
  {
    PolylineJoinsPointsInOrder(shape.points, shape.lineColor, shape.lineWidth, ds, Chain(chain));
  }

  /** A triangle leaf, or a polygon leaf of n >= 1 points, draws its filled
      polygon first and then a closed border of n segments in the border
      colour and width, the last one ending at the first point. */
  lemma RenderedPolygonIsFilledAndClosed(ctx: Context, ds: DrawState, shape: Shape,
                                         chain: seq<Transformation>, locate: Locate)
    requires shape.Triangle? || (shape.Polygon? && |shape.points| >= 1)
    ensures var r := RenderShape(ctx, ds, shape, chain, locate);
            var pts := if shape.Triangle? then [shape.first, shape.second, shape.third]
                       else shape.points;
            && |r| == |pts| + 1
            && r[0] == DrawPolygon(shape.fillColor, pts, ds, Chain(chain))
            && Chained(r[1..])
            && r[1].start == pts[0] && r[|r| - 1].finish == pts[0]
            && forall i :: 1 <= i < |r| ==>
                 r[i].color == shape.borderColor && r[i].width == shape.borderWidth
  {
    var pts := if shape.Triangle? then [shape.first, shape.second, shape.third]
               else shape.points;
    var border := PolygonBorder(pts, shape.borderColor, shape.borderWidth, ds, Chain(chain));
    var r := RenderShape(ctx, ds, shape, chain, locate);
    assert r == [DrawPolygon(shape.fillColor, pts, ds, Chain(chain))] + border;
    assert r[1..] == border;
    BorderIsClosedLoop(pts, shape.borderColor, shape.borderWidth, ds, Chain(chain));
  }

  /* ---- Boxes ---- */

  /** A box shape draws one command in its fill colour with its border
      colour and width. The box it is drawn in, relative to its center:
      squares, rectangles and circles are centered on it; an ellipse's box
      is its size shifted by the full size, so its center lies half a size
      before the given one. */
  lemma BoxesAroundCenter(ctx: Context, ds: DrawState, shape: Shape, chain: seq<Transformation>,
                          locate: Locate)
    requires shape.Square? || shape.Rectangle? || shape.Circle? || shape.Ellipse?
    ensures var r := RenderShape(ctx, ds, shape, chain, locate);
            var border := Border(shape.borderColor, shape.borderWidth);
            && |r| == 1 && r[0].color == shape.fillColor
            && (shape.Square? || shape.Rectangle? ==> r[0].DrawRectangle? && r[0].border == border)
            && (shape.Circle? || shape.Ellipse? ==> r[0].DrawEllipse? && r[0].outline == Some(border))
    ensures var box := RenderShape(ctx, ds, shape, chain, locate)[0].rect;
            var c := shape.centerPosition;
            && (!shape.Ellipse? ==> box.x + box.width / 2.0 == c.x && box.y + box.height / 2.0 == c.y)
            && (shape.Square? ==> box.width == box.height == shape.edgeLength)
            && (shape.Rectangle? || shape.Ellipse? ==> box.width == shape.size.width && box.height == shape.size.height)
            && (shape.Circle? ==> box.width == box.height == 2.0 * shape.radius)
            && (shape.Ellipse? ==> box.x + box.width / 2.0 == c.x - shape.size.width / 2.0
                                   && box.y + box.height / 2.0 == c.y - shape.size.height / 2.0)
  {
  }

  /* ---- The empty polyline, as written ---- */

  /** A Rust `usize` subtraction: it panics on underflow. */
  datatype Panic = SubtractWithOverflow

  function UsizeSub(a: nat, b: nat): (r: Result<nat, Panic>)
    ensures r.Ok? <==> b <= a
    ensures r.Ok? ==> r.value + b == a
  {
    if a < b then Err(SubtractWithOverflow) else Ok(a - b)
  }

  /** The polyline loop as written, `for index in 0..(points.len() - 1)`: the
      bound is computed first, so an empty polyline panics the render thread
      instead of drawing nothing. */
  function PolylineAsWritten(points: seq<Position>, color: Color, width: real,
                             state: DrawState, transform: DrawTransform): (r: Result<seq<Command>, Panic>)
    ensures r.Err? <==> |points| == 0
  {
    match UsizeSub(|points|, 1)
    case Err(e) => Err(e)
    case Ok(bound) =>
      Ok(seq(bound, i requires 0 <= i < bound => DrawLine(color, width, points[i], points[i + 1], state, transform)))
  }

  /** The loop as written agrees with `PolylineSegments` on every polyline
      with at least one point, and panics on the empty one, where
      `PolylineSegments` draws nothing. */
  lemma EmptyPolylinePanics(color: Color, width: real, state: DrawState, transform: DrawTransform,
                            points: seq<Position>)
    ensures PolylineAsWritten([], color, width, state, transform) == Err(SubtractWithOverflow)
    ensures PolylineSegments([], color, width, state, transform) == []
    ensures |points| >= 1 ==>
              PolylineAsWritten(points, color, width, state, transform)
                == Ok(PolylineSegments(points, color, width, state, transform))
  {
  }
}

=== FILE: viewport_fit.dfy ===
/** How `render` turns the stored preferred view into a draw state and a
    top-level transformation (the `KeepAspectRatio` fit and its scissor
    rectangle). Arithmetic is over `real`: f64 rounding is idealised away. */
module ViewportFit {
  import opened Wrappers
  import opened Geometry

  /** The pixel size of the render callback's `context.viewport`: the width and
      height of its `rect`, and its `draw_size`. */
  datatype Context = Context(rectWidth: nat, rectHeight: nat, drawWidth: nat, drawHeight: nat)

  /** The draw state handed to every primitive: the default one, or one that
      clips to a scissor rectangle given in whole pixels. */
  datatype DrawState =
    | DefaultState
    | Scissor(x: nat, y: nat, width: nat, height: nat)

  /** Result of the view set-up step of `render`. */
  datatype Setup = Setup(state: DrawState, transform: Transformation)

  const U32Max: nat := 0xFFFF_FFFF

  /** Rust's saturating `as u32` cast of a finite float: truncation toward
      zero, clamped to the range of u32. */
  function CastU32(v: real): (n: nat)
    ensures n <= U32Max
    ensures v <= 0.0 ==> n == 0
    ensures 0.0 <= v ==> n as real <= v
    ensures 0.0 <= v < U32Max as real ==> v < n as real + 1.0
    ensures U32Max as real <= v ==> n == U32Max
  {
    if v <= 0.0 then 0
    else if v >= U32Max as real then U32Max
    else v.Floor
  }

  /** The letterbox size: start from the full surface height, take the width
      the viewport's aspect ratio asks for, and when that is wider than the
      surface use the full width and derive the height from it instead. */
  function FitAspect(view: Size, surfaceWidth: nat, surfaceHeight: nat): (r: Size)
    requires view.height != 0.0
    ensures r.width <= surfaceWidth as real
    ensures r.width * view.height == r.height * view.width
    ensures r.height == surfaceHeight as real || r.width == surfaceWidth as real
    ensures PositiveSize(view) ==>
              0.0 <= r.width && 0.0 <= r.height <= surfaceHeight as real
  {
    var h := surfaceHeight as real;
    var w := view.width / view.height * h;
    if w > surfaceWidth as real then
      assert view.width != 0.0 by {
        assert view.width == 0.0 ==> w == 0.0;
      }
      FitWidth(view, surfaceWidth, surfaceHeight)
    else
      assert w * view.height == h * view.width;
      Size(w, h)
  }

  /** The width-bound branch of `FitAspect`. */
  function FitWidth(view: Size, surfaceWidth: nat, surfaceHeight: nat): (r: Size)
    requires view.height != 0.0 && view.width != 0.0
    requires view.width / view.height * surfaceHeight as real > surfaceWidth as real
    ensures r.width == surfaceWidth as real
    ensures r.width * view.height == r.height * view.width
    ensures 0.0 < view.width && 0.0 < view.height ==>
              0.0 <= r.height <= surfaceHeight as real
  {
    var w := surfaceWidth as real;
    var h := view.height / view.width * w;
    assert h * view.width == w * view.height;
    assert 0.0 < view.width && 0.0 < view.height ==> 0.0 <= h <= surfaceHeight as real by {
      if 0.0 < view.width && 0.0 < view.height {
        var H := surfaceHeight as real;
        assert view.width * H / view.height > w;
        assert view.width * H > w * view.height;
        assert h * view.width < H * view.width;
      }
    }
    Size(w, h)
  }

  /** The scissor rectangle of `KeepAspectRatioAndScissorRemains`: the fitted
      size, centered on the surface, every coordinate cast to u32. When the
      fit lies inside a surface that u32 can address, the rectangle lies
      inside it too, is the fit truncated to whole pixels, and leaves margins
      on either side that differ by at most two pixels. */
  function ScissorFor(fit: Size, surfaceWidth: nat, surfaceHeight: nat): (s: DrawState)
    ensures s.Scissor?
    ensures 0.0 <= fit.width <= surfaceWidth as real ==> s.x + s.width <= surfaceWidth
    ensures 0.0 <= fit.height <= surfaceHeight as real ==> s.y + s.height <= surfaceHeight
    ensures 0.0 <= fit.width <= surfaceWidth as real && surfaceWidth <= U32Max ==>
              && s.width as real <= fit.width < s.width as real + 1.0
              && s.x <= surfaceWidth - s.x - s.width <= s.x + 2
    ensures 0.0 <= fit.height <= surfaceHeight as real && surfaceHeight <= U32Max ==>
              && s.height as real <= fit.height < s.height as real + 1.0
              && s.y <= surfaceHeight - s.y - s.height <= s.y + 2
  {
    var s := Scissor(
      CastU32((surfaceWidth as real - fit.width) / 2.0),
      CastU32((surfaceHeight as real - fit.height) / 2.0),
      CastU32(fit.width),
      CastU32(fit.height));
    assert 0.0 <= fit.width <= surfaceWidth as real ==>
             (s.x + s.width) as real <= surfaceWidth as real;
    assert 0.0 <= fit.height <= surfaceHeight as real ==>
             (s.y + s.height) as real <= surfaceHeight as real;
    s
  }

  /** The symbolic transformation of the keep-aspect-ratio branch: move the
      canonical center to the origin, scale by the fitted fraction of the
      surface, move back. */
  function KeepAspectTransform(fit: Size, surfaceWidth: nat, surfaceHeight: nat): Transformation
    requires surfaceWidth > 0 && surfaceHeight > 0
  {
    Composition("KeepAspectRatio", [
      Translation(WindowViewport().center, Origin),
      Scale(fit.width / surfaceWidth as real, fit.height / surfaceHeight as real),
      Translation(Origin, WindowViewport().center)
    ])
  }

  /** Whether the set-up step is defined: the keep-aspect-ratio branches
      divide by the viewport's height and by the surface's width and height. */
  predicate Drawable(ctx: Context, view: Option<PreferredView>) {
    view.Some? && view.value.modification != LooseAspectRatio ==>
      && view.value.viewport.size.height != 0.0
      && ctx.rectWidth > 0 && ctx.rectHeight > 0
  }

  predicate PositiveSize(size: Size) {
    0.0 < size.width && 0.0 < size.height
  }

  /** `t` is the keep-aspect-ratio transformation for `view` on a surface:
      about the canonical center, it scales each axis by a factor in (0, 1],
      leaves at least one axis at full size, and the scaled surface has the
      viewport's aspect ratio. */
  predicate KeepsAspect(t: Transformation, view: Size, surfaceWidth: nat, surfaceHeight: nat) {
    && t.Composition? && |t.parts| == 3
    && t.parts[0] == Translation(WindowViewport().center, Origin)
    && t.parts[2] == Translation(Origin, WindowViewport().center)
    && t.parts[1].Scale?
    && 0.0 < t.parts[1].sx <= 1.0 && 0.0 < t.parts[1].sy <= 1.0
    && (t.parts[1].sx == 1.0 || t.parts[1].sy == 1.0)
    && t.parts[1].sx * surfaceWidth as real * view.height
         == t.parts[1].sy * surfaceHeight as real * view.width
  }

  /** A scissor rectangle covers what the scale leaves of the surface: each
      side is the scaled extent truncated to whole pixels, and the margins on
      either side differ by at most two pixels. */
  predicate ScissorMatches(s: DrawState, scale: Transformation, surfaceWidth: nat, surfaceHeight: nat)
    requires s.Scissor? && scale.Scale?
  {
    var W := surfaceWidth as real;
    var H := surfaceHeight as real;
    && s.width as real <= scale.sx * W < s.width as real + 1.0
    && s.height as real <= scale.sy * H < s.height as real + 1.0
    && s.x <= surfaceWidth - s.x - s.width <= s.x + 2
    && s.y <= surfaceHeight - s.y - s.height <= s.y + 2
  }

  /** The draw state and top-level transformation `render` derives from the
      preferred view currently held by the render thread. */
  function ViewSetup(ctx: Context, view: Option<PreferredView>): (r: Setup)
    requires Drawable(ctx, view)
    ensures view.None? || view.value.modification == LooseAspectRatio ==>
              r == Setup(DefaultState, Identity)
    ensures r.state.Scissor? <==>
              view.Some? && view.value.modification == KeepAspectRatioAndScissorRemains
    ensures r.state.Scissor? && PositiveSize(view.value.viewport.size) ==>
              && r.state.x + r.state.width <= ctx.rectWidth
              && r.state.y + r.state.height <= ctx.rectHeight
    ensures view.Some? && view.value.modification != LooseAspectRatio &&
            PositiveSize(view.value.viewport.size) ==>
              && KeepsAspect(r.transform, view.value.viewport.size, ctx.rectWidth, ctx.rectHeight)
              && (r.state.Scissor? && ctx.rectWidth <= U32Max && ctx.rectHeight <= U32Max ==>
                    ScissorMatches(r.state, r.transform.parts[1], ctx.rectWidth, ctx.rectHeight))
  {
    match view
    case None => Setup(DefaultState, Identity)
    case Some(PreferredView(viewport, modification)) =>
      if modification == LooseAspectRatio then Setup(DefaultState, Identity)
      else KeepAspectSetup(ctx, viewport.size, modification == KeepAspectRatioAndScissorRemains)
  }

  /** The keep-aspect-ratio branch of `ViewSetup`, clipping to the fit when
      `scissored`. */
  function KeepAspectSetup(ctx: Context, view: Size, scissored: bool): (r: Setup)
    requires view.height != 0.0 && ctx.rectWidth > 0 && ctx.rectHeight > 0
    ensures r.state.Scissor? <==> scissored
    ensures r.state.Scissor? && PositiveSize(view) ==>
              && r.state.x + r.state.width <= ctx.rectWidth
              && r.state.y + r.state.height <= ctx.rectHeight
    ensures PositiveSize(view) ==>
              && KeepsAspect(r.transform, view, ctx.rectWidth, ctx.rectHeight)
              && (r.state.Scissor? && ctx.rectWidth <= U32Max && ctx.rectHeight <= U32Max ==>
                    ScissorMatches(r.state, r.transform.parts[1], ctx.rectWidth, ctx.rectHeight))
  {
    var fit := FitAspect(view, ctx.rectWidth, ctx.rectHeight);
    var t := KeepAspectTransform(fit, ctx.rectWidth, ctx.rectHeight);
    if scissored then
      var s := ScissorFor(fit, ctx.rectWidth, ctx.rectHeight);
      assert PositiveSize(view) ==>
               && KeepsAspect(t, view, ctx.rectWidth, ctx.rectHeight)
               && (ctx.rectWidth <= U32Max && ctx.rectHeight <= U32Max ==>
                     ScissorMatches(s, t.parts[1], ctx.rectWidth, ctx.rectHeight)) by {
        if PositiveSize(view) {
          FitKeepsAspect(view, ctx.rectWidth, ctx.rectHeight);
          if ctx.rectWidth <= U32Max && ctx.rectHeight <= U32Max {
            ScissorCoversFit(view, ctx.rectWidth, ctx.rectHeight);
          }
        }
      }
      Setup(s, t)
    else
      assert PositiveSize(view) ==> KeepsAspect(t, view, ctx.rectWidth, ctx.rectHeight) by {
        if PositiveSize(view) {
          FitKeepsAspect(view, ctx.rectWidth, ctx.rectHeight);
        }
      }
      Setup(DefaultState, t)
  }

  /** The transformation built from the fit keeps the viewport's aspect
      ratio. */
  lemma FitKeepsAspect(view: Size, surfaceWidth: nat, surfaceHeight: nat)
    requires PositiveSize(view) && surfaceWidth > 0 && surfaceHeight > 0
    ensures KeepsAspect(KeepAspectTransform(FitAspect(view, surfaceWidth, surfaceHeight),
                                            surfaceWidth, surfaceHeight),
                        view, surfaceWidth, surfaceHeight)
  {
    var fit := FitAspect(view, surfaceWidth, surfaceHeight);
    var scale := KeepAspectTransform(fit, surfaceWidth, surfaceHeight).parts[1];
    KeepAspectScalesDown(view, surfaceWidth, surfaceHeight);
    assert scale.sx * surfaceWidth as real == fit.width;
    assert scale.sy * surfaceHeight as real == fit.height;
  }

  /** The scissor rectangle covers what the transformation's scale leaves of
      the surface. */
  lemma ScissorCoversFit(view: Size, surfaceWidth: nat, surfaceHeight: nat)
    requires PositiveSize(view) && 0 < surfaceWidth <= U32Max && 0 < surfaceHeight <= U32Max
    ensures var fit := FitAspect(view, surfaceWidth, surfaceHeight);
            ScissorMatches(ScissorFor(fit, surfaceWidth, surfaceHeight),
                           KeepAspectTransform(fit, surfaceWidth, surfaceHeight).parts[1],
                           surfaceWidth, surfaceHeight)
  {
    var fit := FitAspect(view, surfaceWidth, surfaceHeight);
    var scale := KeepAspectTransform(fit, surfaceWidth, surfaceHeight).parts[1];
    assert scale.sx * surfaceWidth as real == fit.width;
    assert scale.sy * surfaceHeight as real == fit.height;
  }

  /** The letterbox is the largest rectangle with the viewport's aspect ratio
      that fits the surface: any other such rectangle is no wider and no
      taller. */
  lemma FitIsLargest(view: Size, surfaceWidth: nat, surfaceHeight: nat, other: Size)
    requires PositiveSize(view)
    requires 0.0 <= other.width <= surfaceWidth as real
    requires 0.0 <= other.height <= surfaceHeight as real
    requires other.width * view.height == other.height * view.width
    ensures other.width <= FitAspect(view, surfaceWidth, surfaceHeight).width
    ensures other.height <= FitAspect(view, surfaceWidth, surfaceHeight).height
  {
    var r := FitAspect(view, surfaceWidth, surfaceHeight);
    if r.height == surfaceHeight as real {
      assert other.height * view.width <= r.height * view.width;
      assert other.width * view.height <= r.width * view.height;
    } else {
      assert r.width == surfaceWidth as real;
      assert other.width * view.height <= r.width * view.height;
      assert other.height * view.width <= r.height * view.width;
    }
  }

  /** The keep-aspect-ratio transformation shrinks exactly the axis that has
      room to spare: both scale factors lie in (0, 1] and at least one is 1. */
  lemma KeepAspectScalesDown(view: Size, surfaceWidth: nat, surfaceHeight: nat)
    requires PositiveSize(view) && surfaceWidth > 0 && surfaceHeight > 0
    ensures var fit := FitAspect(view, surfaceWidth, surfaceHeight);
            var t := KeepAspectTransform(fit, surfaceWidth, surfaceHeight);
            var scale := t.parts[1];
            && 0.0 < scale.sx <= 1.0 && 0.0 < scale.sy <= 1.0
            && (scale.sx == 1.0 || scale.sy == 1.0)
  {
    var fit := FitAspect(view, surfaceWidth, surfaceHeight);
    var W := surfaceWidth as real;
    var H := surfaceHeight as real;
    var scale := KeepAspectTransform(fit, surfaceWidth, surfaceHeight).parts[1];
    assert scale == Scale(fit.width / W, fit.height / H);
    assert fit.width <= W && fit.height <= H;
    if fit.height == H {
      assert fit.width * view.height == H * view.width;
      assert 0.0 < fit.width;
    } else {
      assert fit.width == W;
      assert W * view.height == fit.height * view.width;
      assert 0.0 < fit.height;
    }
    FractionInUnit(fit.width, W);
    FractionInUnit(fit.height, H);
  }

  lemma FractionInUnit(part: real, whole: real)
    requires 0.0 < part <= whole
    ensures 0.0 < part / whole <= 1.0
    ensures part == whole ==> part / whole == 1.0
  {
  }

  /** A 4 by 2 viewport on an 800 by 800 surface is letterboxed to 800 by 400:
      the horizontal scale stays 1 and the vertical one halves. */
  lemma WideViewportOnSquareSurface()
    ensures FitAspect(Size(4.0, 2.0), 800, 800) == Size(800.0, 400.0)
    ensures KeepAspectTransform(Size(800.0, 400.0), 800, 800).parts[1] == Scale(1.0, 0.5)
  {
  }

  /** A viewport of negative width on a 10 by 10 surface: the fitted width is
      negative, so only the width's cast saturates at zero, while the offset
      (W - w) / 2 grows past the surface's right edge. */
  lemma NegativeWidthScissor()
    ensures FitAspect(Size(-3.0, 1.0), 10, 10) == Size(-30.0, 10.0)
    ensures ScissorFor(Size(-30.0, 10.0), 10, 10) == Scissor(20, 0, 0, 10)
  {
  }
}

=== FILE: visualiser.dfy ===
/** `PistonVisualiser`: the producer-side handle, the two single-slot cells it
    shares with the render thread, the render thread's loop, and the
    open/close lifecycle. Threads are modelled as a state record changed by
    atomic steps: a producer call, the thread's start, one loop iteration, a
    close. */
module Visualiser {
  import opened Wrappers
  import opened Geometry
  import opened ViewportFit
  import opened Scene
  import Mailbox

  /** `PistonVisualiserError`. */
  datatype VisualiserError = CloseCouldNotJoinRenderThread(message: string)

  /** The `Debug` text of a `Box<dyn Any + Send>`, whatever it holds. */
  const JoinPanicText: string := "Any { .. }"

  /** `FurtherPistonVisualiserError`, restricted to the environment's failures. */
  datatype RenderError = RenderingEnvironmentError(cause: string)

  /** Where the render thread is: before its first take of the cells, inside
      its event loop, or past the loop's end. */
  datatype Phase = Starting | Looping | Exited

  /** The render thread's local state: the geometries and preferred view it
      draws, and whether it has asked the window to close. */
  datatype RenderThread = RenderThread(
    phase: Phase,
    geometries: seq<Geometry>,
    view: Option<PreferredView>,
    windowShouldClose: bool)

  /** Everything the handle and the render thread hold. `joinHandle` says
      whether the handle still holds the thread's join handle. */
  datatype State = State(
    joinHandle: bool,
    closeRequested: bool,
    closed: bool,
    lastGeometries: seq<Geometry>,
    geometrySlot: Mailbox.Slot<seq<Geometry>>,
    lastView: Option<PreferredView>,
    viewSlot: Mailbox.Slot<PreferredView>,
    thread: RenderThread)

  /** What the environment answers when asked for its preferred view and its
      geometries; either request may fail. */
  datatype Environment = Environment(
    preferredView: Result<PreferredView, string>,
    scene: Result<seq<Geometry>, string>)

  /** The base crate's `Geometry2D::transform(from, to)`, mapping a geometry
      from one viewport into another. It is not part of this model, so the
      producer step takes it as a parameter. */
  type Retarget = (Geometry, Viewport, Viewport) -> Geometry

  /** One event from `window.next()`. */
  datatype Event = RenderTick(context: Context) | InputEvent | OtherEvent

  datatype Publication = Publication(
    outcome: Result<(), RenderError>,
    next: State,
    wroteGeometries: bool,
    wroteView: bool)

  datatype Iteration = Iteration(next: State, frame: seq<Command>)

  datatype Closing = Closing(outcome: Result<(), VisualiserError>, next: State)

  /** `run`: the handle right after spawning the render thread. The geometry
      cell starts holding an empty list, the view cell starts empty. */
  function Run(): State {
    State(
      joinHandle := true,
      closeRequested := false,
      closed := false,
      lastGeometries := [],
      geometrySlot := Some([]),
      lastView := None,
      viewSlot := None,
      thread := RenderThread(Starting, [], None, false))
  }

  /** `is_open`. */
  function IsOpen(s: State): bool {
    !s.closed
  }

  /** The invariant every reachable state keeps.
      Lifecycle: `closed` is set exactly when the loop has ended; the window
      is asked to close, and the join handle is taken, only after a close
      request.
      Cells: a full cell holds exactly what the producer last wrote; before
      the thread starts both cells still hold the last values; afterwards an
      empty cell means the thread already holds the last values. */
  predicate Valid(s: State) {
    && (s.closed <==> s.thread.phase == Exited)
    && (s.thread.windowShouldClose ==> s.closeRequested)
    && (!s.joinHandle ==> s.closeRequested)
    && (s.geometrySlot.Some? ==> s.geometrySlot.value == s.lastGeometries)
    && (s.viewSlot.Some? ==> s.viewSlot == s.lastView)
    && (s.thread.phase == Starting ==>
          s.geometrySlot == Some(s.lastGeometries) && s.viewSlot == s.lastView)
    && (s.thread.phase != Starting && s.geometrySlot.None? ==>
          s.thread.geometries == s.lastGeometries)
    && (s.thread.phase != Starting && s.viewSlot.None? ==>
          s.thread.view == s.lastView)
  }

  /* ---- Producer ---- */

  /** Every geometry of the scene, mapped from the preferred viewport into the
      canonical window viewport. */
  function Retargeted(scene: seq<Geometry>, from: Viewport, retarget: Retarget): seq<Geometry> {
    seq(|scene|, i requires 0 <= i < |scene| => retarget(scene[i], from, WindowViewport()))
  }

  /** `render_two_dimensional`: ask the environment for its preferred view and
      then its geometries, failing with its error if either request fails;
      otherwise write each cell only when the new value differs from the one
      last written, and remember what was written. */
  function RenderTwoDimensional(s: State, env: Environment, retarget: Retarget): (r: Publication)
    ensures r.outcome.Err? <==> env.preferredView.Err? || env.scene.Err?
    ensures env.preferredView.Err? ==>
              r.outcome == Err(RenderingEnvironmentError(env.preferredView.error))
    ensures env.preferredView.Ok? && env.scene.Err? ==>
              r.outcome == Err(RenderingEnvironmentError(env.scene.error))
    ensures r.outcome.Err? ==> r.next == s && !r.wroteGeometries && !r.wroteView
    ensures r.outcome.Ok? ==>
              var scene := Retargeted(env.scene.value, env.preferredView.value.viewport, retarget);
              && (r.wroteGeometries <==> scene != s.lastGeometries)
              && r.next.lastGeometries == scene
              && r.next.geometrySlot == (if r.wroteGeometries then Some(scene) else s.geometrySlot)
              && (r.wroteView <==> Some(env.preferredView.value) != s.lastView)
              && r.next.lastView == Some(env.preferredView.value)
              && r.next.viewSlot == (if r.wroteView then r.next.lastView else s.viewSlot)
    ensures r.next.thread == s.thread && r.next.closed == s.closed
    ensures r.next.closeRequested == s.closeRequested && r.next.joinHandle == s.joinHandle
  {
    match env.preferredView
    case Err(e) => Publication(Err(RenderingEnvironmentError(e)), s, false, false)
    case Ok(view) =>
      match env.scene
      case Err(e) => Publication(Err(RenderingEnvironmentError(e)), s, false, false)
      case Ok(geometries) =>
        var scene := Retargeted(geometries, view.viewport, retarget);
        var writeGeometries := scene != s.lastGeometries;
        var s1 := if writeGeometries
                  then s.(geometrySlot := Mailbox.Write(s.geometrySlot, scene), lastGeometries := scene)
                  else s;
        var newView := Some(view);
        var writeView := newView != s1.lastView;
        var s2 := if writeView
                  then s1.(viewSlot := Mailbox.Write(s1.viewSlot, view), lastView := newView)
                  else s1;
        Publication(Ok(()), s2, writeGeometries, writeView)
  }

  /* ---- Render thread ---- */

  /** The start of `thread_function`: take both cells once; an empty geometry
      cell gives the empty list, an empty view cell no preference. */
  function ThreadStart(s: State): (r: State)
    requires s.thread.phase == Starting
    ensures r.thread.phase == Looping && r.geometrySlot.None? && r.viewSlot.None?
    ensures Valid(s) ==> r.thread.geometries == s.lastGeometries && r.thread.view == s.lastView
    ensures s.geometrySlot.None? ==> r.thread.geometries == []
    ensures r.lastGeometries == s.lastGeometries && r.lastView == s.lastView
    ensures r.closed == s.closed && r.closeRequested == s.closeRequested && r.joinHandle == s.joinHandle
  {
    var g := Mailbox.Take(s.geometrySlot);
    var v := Mailbox.Take(s.viewSlot);
    s.(geometrySlot := g.slot, viewSlot := v.slot,
       thread := s.thread.(phase := Looping, geometries := g.received.UnwrapOr([]), view := v.received))
  }

  /** Whether a render tick the loop would handle can be drawn from the
      thread's current view. */
  predicate CanDraw(s: State, incoming: Option<Event>) {
    !s.thread.windowShouldClose && incoming.Some? && incoming.value.RenderTick? ==>
      Drawable(incoming.value.context, s.thread.view)
  }

  /** One iteration of the render loop. `incoming` is what the window's event
      source yields unless the window has been asked to close, in which case
      it yields nothing. No event ends the loop and sets `closed`. Otherwise a
      render tick draws a frame; then, if a close was requested, the window is
      asked to close and the cells are left alone; if not, both cells are
      taken and the thread keeps its old values for any that was empty. */
  function LoopStep(s: State, incoming: Option<Event>, locate: Locate): (r: Iteration)
    requires s.thread.phase == Looping
    requires CanDraw(s, incoming)
    ensures r.next.thread.phase == Exited <==> s.thread.windowShouldClose || incoming.None?
    ensures r.next.closed <==> s.closed || r.next.thread.phase == Exited
    ensures r.next.thread.phase == Exited ==> r.frame == [] && r.next.thread.geometries == s.thread.geometries
    ensures |r.frame| > 0 <==> !s.thread.windowShouldClose && incoming.Some? && incoming.value.RenderTick?
    ensures !s.thread.windowShouldClose && incoming.Some? && incoming.value.RenderTick? ==>
              r.frame == RenderFrame(incoming.value.context, s.thread.geometries, s.thread.view, locate)
    ensures s.closeRequested || r.next.thread.phase == Exited ==>
              && r.next.geometrySlot == s.geometrySlot && r.next.viewSlot == s.viewSlot
              && r.next.thread.geometries == s.thread.geometries && r.next.thread.view == s.thread.view
    ensures s.closeRequested && r.next.thread.phase == Looping ==> r.next.thread.windowShouldClose
    ensures !s.closeRequested && r.next.thread.phase == Looping ==>
              && r.next.geometrySlot.None? && r.next.viewSlot.None?
              && r.next.thread.geometries == (if s.geometrySlot.Some? then s.geometrySlot.value else s.thread.geometries)
              && r.next.thread.view == (if s.viewSlot.Some? then s.viewSlot else s.thread.view)
    ensures r.next.lastGeometries == s.lastGeometries && r.next.lastView == s.lastView
    ensures r.next.closeRequested == s.closeRequested && r.next.joinHandle == s.joinHandle
  {
    var th := s.thread;
    var next := if th.windowShouldClose then None else incoming;
    match next
    case None => Iteration(s.(closed := true, thread := th.(phase := Exited)), [])
    case Some(event) =>
      var frame := if event.RenderTick? then RenderFrame(event.context, th.geometries, th.view, locate) else [];
      if s.closeRequested then
        Iteration(s.(thread := th.(windowShouldClose := true)), frame)
      else
        var g := Mailbox.Take(s.geometrySlot);
        var v := Mailbox.Take(s.viewSlot);
        Iteration(s.(geometrySlot := g.slot, viewSlot := v.slot,
                     thread := th.(geometries := g.received.UnwrapOr(th.geometries),
                                   view := v.received.Or(th.view))),
                  frame)
  }

  /* ---- Lifecycle ---- */

  /** `close`: the first call takes the join handle, requests the close and
      reports the join's outcome; later calls succeed and change nothing.
      `joined` says whether joining the render thread succeeded, that is,
      whether the thread ended without a panic. The source formats a failed
      join's payload, a `Box<dyn Any + Send>`, with `{:?}`, which always
      prints `JoinPanicText`, so the panic message never reaches the error.
      Waiting for the thread to finish is not modelled. */
  function Close(s: State, joined: bool): (r: Closing)
    ensures s.joinHandle ==>
              && !r.next.joinHandle && r.next.closeRequested
              && (r.outcome.Ok? <==> joined)
              && (!joined ==> r.outcome == Err(CloseCouldNotJoinRenderThread(JoinPanicText)))
    ensures !s.joinHandle ==> r.outcome == Ok(()) && r.next == s
    ensures r.next.thread == s.thread && r.next.closed == s.closed
    ensures r.next.lastGeometries == s.lastGeometries && r.next.geometrySlot == s.geometrySlot
    ensures r.next.lastView == s.lastView && r.next.viewSlot == s.viewSlot
  {
    if s.joinHandle then
      var outcome := if joined then Ok(()) else Err(CloseCouldNotJoinRenderThread(JoinPanicText));
      Closing(outcome, s.(joinHandle := false, closeRequested := true))
    else
      Closing(Ok(()), s)
  }

  /* ---- The invariant holds in every reachable state ---- */

  lemma RunIsValid()
    ensures Valid(Run()) && IsOpen(Run())
    ensures Run().geometrySlot == Some([]) && Run().viewSlot.None?
  {
  }

  lemma RenderTwoDimensionalKeepsValid(s: State, env: Environment, retarget: Retarget)
    requires Valid(s)
    ensures Valid(RenderTwoDimensional(s, env, retarget).next)
  {
  }

  lemma ThreadStartKeepsValid(s: State)
    requires Valid(s) && s.thread.phase == Starting
    ensures Valid(ThreadStart(s))
  {
  }

  lemma LoopStepKeepsValid(s: State, incoming: Option<Event>, locate: Locate)
    requires Valid(s) && s.thread.phase == Looping && CanDraw(s, incoming)
    ensures Valid(LoopStep(s, incoming, locate).next)
  {
  }

  lemma CloseKeepsValid(s: State, joined: bool)
    requires Valid(s)
    ensures Valid(Close(s, joined).next)
  {
  }

  /* ---- Delivery ---- */

  /** Every loop iteration that does not end the loop and sees no close
      request leaves the render thread holding exactly the geometries and the
      view the producer last wrote, whatever it missed in between. */
  lemma LoopStepDeliversLatest(s: State, incoming: Option<Event>, locate: Locate)
    requires Valid(s) && s.thread.phase == Looping && CanDraw(s, incoming)
    requires !s.closeRequested && incoming.Some?
    ensures var t := LoopStep(s, incoming, locate).next.thread;
            t.phase == Looping && t.geometries == s.lastGeometries && t.view == s.lastView
  {
  }

  /** Of two successful producer calls before the render thread's next
      iteration, only the second one's scene and view reach the thread. */
  lemma SecondPublishWins(s: State, first: Environment, second: Environment, retarget: Retarget,
                          incoming: Event, locate: Locate)
    requires Valid(s) && s.thread.phase == Looping && !s.closeRequested
    requires first.preferredView.Ok? && first.scene.Ok?
    requires second.preferredView.Ok? && second.scene.Ok?
    requires CanDraw(s, Some(incoming))
    ensures var p1 := RenderTwoDimensional(s, first, retarget).next;
            var p2 := RenderTwoDimensional(p1, second, retarget).next;
            var t := LoopStep(p2, Some(incoming), locate).next.thread;
            && t.geometries == Retargeted(second.scene.value, second.preferredView.value.viewport, retarget)
            && t.view == Some(second.preferredView.value)
  {
    var p1 := RenderTwoDimensional(s, first, retarget).next;
    RenderTwoDimensionalKeepsValid(s, first, retarget);
    var p2 := RenderTwoDimensional(p1, second, retarget).next;
    RenderTwoDimensionalKeepsValid(p1, second, retarget);
    assert CanDraw(p2, Some(incoming));
    LoopStepDeliversLatest(p2, Some(incoming), locate);
  }

  /* ---- Dedup ---- */

  /** A producer call whose output matches what was last written writes
      neither cell and changes nothing, even after the render thread has
      taken the cells in between: two calls with the same output write once. */
  lemma IdenticalRenderWritesOnce(s: State, between: State, env: Environment, retarget: Retarget)
    requires RenderTwoDimensional(s, env, retarget).outcome.Ok?
    requires between.lastGeometries == RenderTwoDimensional(s, env, retarget).next.lastGeometries
    requires between.lastView == RenderTwoDimensional(s, env, retarget).next.lastView
    ensures var again := RenderTwoDimensional(between, env, retarget);
            again.outcome.Ok? && !again.wroteGeometries && !again.wroteView && again.next == between
  {
  }

  /** Calling the producer twice in a row with the same environment leaves
      the state of the first call unchanged. */
  lemma RenderTwoDimensionalIdempotent(s: State, env: Environment, retarget: Retarget)
    ensures var once := RenderTwoDimensional(s, env, retarget).next;
            RenderTwoDimensional(once, env, retarget).next == once
  {
    if RenderTwoDimensional(s, env, retarget).outcome.Ok? {
      IdenticalRenderWritesOnce(s, RenderTwoDimensional(s, env, retarget).next, env, retarget);
    }
  }

  /** Before anything was published, whether or not the render thread has
      already taken the cells, the first successful call always writes the
      view cell, since no view was written before. An empty first scene is
      never written, since the last written list starts empty: the geometry
      cell keeps what it held, an empty list or nothing. */
  lemma FirstRender(s: State, env: Environment, retarget: Retarget)
    requires Valid(s) && s.lastGeometries == [] && s.lastView == None
    requires env.preferredView.Ok? && env.scene.Ok?
    ensures var p := RenderTwoDimensional(s, env, retarget);
            && p.wroteView && p.next.viewSlot == Some(env.preferredView.value)
            && (env.scene.value == [] ==>
                  && !p.wroteGeometries && p.next.geometrySlot == s.geometrySlot
                  && (p.next.geometrySlot.Some? ==> p.next.geometrySlot == Some([])))
  {
  }

  /* ---- Close ---- */

  /** After the first close every further close succeeds and changes
      nothing, whatever joining would have reported. */
  lemma CloseIsIdempotent(s: State, first: bool, later: bool)
    ensures var once := Close(s, first).next;
            Close(once, later) == Closing(Ok(()), once)
  {
  }

  /** Once a close is requested, the loop takes no more cells and ends
      within two iterations, whatever the window yields; `closed` is set only
      at that end. */
  lemma CloseRequestEndsLoop(s: State, e1: Option<Event>, e2: Option<Event>, locate: Locate)
    requires Valid(s) && s.thread.phase == Looping && s.closeRequested
    requires CanDraw(s, e1)
    ensures var r1 := LoopStep(s, e1, locate).next;
            && r1.geometrySlot == s.geometrySlot && r1.viewSlot == s.viewSlot
            && (r1.thread.phase == Looping ==>
                  && !r1.closed
                  && var r2 := LoopStep(r1, e2, locate).next;
                  && r2.thread.phase == Exited && r2.closed && !IsOpen(r2)
                  && r2.geometrySlot == s.geometrySlot && r2.viewSlot == s.viewSlot)
  {
    var r1 := LoopStep(s, e1, locate).next;
    if r1.thread.phase == Looping {
      assert r1.thread.windowShouldClose;
      assert CanDraw(r1, e2);
    }
  }

  /** The handle reports open exactly until the render loop has ended. */
  lemma OpenUntilLoopEnds(s: State)
    requires Valid(s)
    ensures IsOpen(s) <==> s.thread.phase != Exited
  {
  }
}

=== FILE: wrappers.dfy ===
/** Rust's Option and Result, as far as the visualiser uses them. */
module Wrappers {

  /** An optional value: the content of a single-slot cell, a preferred view
      that may not have been published yet, a join handle that may have been
      taken. */
  datatype Option<+T> = None | Some(value: T) {

    /** Option::unwrap_or: the held value, or `default` when empty. */
    function UnwrapOr(default: T): T {
      match this
      case Some(v) => v
      case None => default
    }

    /** Option::or: this option when it holds a value, otherwise `other`. */
    function Or(other: Option<T>): Option<T> {
      match this
      case Some(_) => this
      case None => other
    }
  }

  /** A success value or an error value. */
  datatype Result<+T, +E> = Ok(value: T) | Err(error: E)
}
